=== FILE: README.md ===
# claude_cli: input framing and transcript management

`claude_cli.py` is a terminal chat front end for a remote completion service.
Two pieces of it have sequential control worth stating precisely, and this
project models and proves them in Dafny:

- **Input framing** (`get_multiline_input`). The terminal delivers events: a
  typed line, end of input (Ctrl-D, `EOFError`) or an interrupt (Ctrl-C,
  `KeyboardInterrupt`). Lines are buffered verbatim until a line that strips
  to `/quit` (quit, buffer discarded; tested first), a line that strips to
  `///` (submit the buffer joined with `"\n\n"`), end of input (submit, like
  the sentinel) or an interrupt (quit, like `/quit`). Module `InputFraming`
  gives a reference definition `Frame` over a `seq<Event>` that also reports
  how many events were consumed, and a method `GetMultilineInput` that
  follows the source's loop one event at a time and is proved to compute
  `Frame`.
- **Transcript management** (the loop of `chat_with_claude`). The message list
  starts with the system message when one is configured. Each turn takes a
  framed input: quit ends the loop, a submission that is blank after
  `strip()` is skipped without a request, otherwise the request is the
  transcript plus one user message, and only a successful reply extends the
  transcript, by the user message and then the assistant reply. Module
  `Session` models the loop as a fold `Run` over turns (framed input plus the
  abstract service outcome `Success(text) | Failure`), and states what the
  fold must produce through independent definitions: the successful
  exchanges before the first quit (`Exchanges`), the submissions sent
  (`Submissions`) and the alternation invariant (`WellFormed`).
- Module `Text` models the two Python string operations involved:
  `str.strip()` and `sep.join(parts)`, plus `split("\n\n")` as the inverse
  of the join.

The input is modelled as a finite event sequence; running out of events
behaves as end of input, since `input()` raises `EOFError` on a closed
stream. One consequence is stated as a lemma (`Session.ClosedInputNeverEnds`):
once the stream is closed, every prompt yields the empty submission without
consuming anything, the loop skips it, and the loop never reaches a quit.

Behaviour of the code worth noting:

- The sentinel and `/quit` are compared after `strip()`, which removes
  whitespace at both ends of the line.
- The lines `line1`, an empty line and `line2` followed by `///` submit
  `"line1\n\n\n\nline2"`: four line feeds, one separator on each side of the
  empty element.
- The system message is tested with Python truthiness, so an empty string
  behaves like no system message.

## Model

| member | source | states |
|---|---|---|
| Text.SkipSpacesShape | claude_cli.py:55 | the left half of `strip()`: scanning from the start passes only whitespace and stops at the first character that is not whitespace, or at the end |
| Text.SkipSpacesIs | claude_cli.py:55 | the point where the leading whitespace ends is the only position with that characterisation |
| Text.SkipSpacesBackShape | claude_cli.py:55 | the right half of `strip()`: scanning back from the end passes only whitespace and stops just after the last character that is not whitespace |
| Text.SkipSpacesBackIs | claude_cli.py:55 | the point where the trailing whitespace starts is the only position with that characterisation |
| Text.StripIsTrimmedSlice | claude_cli.py:55-57 | the stripped line is a slice of the line with only whitespace on either side, has no whitespace at either end, and is empty exactly when the line is all whitespace |
| Text.StripPadded | claude_cli.py:55-57 | padding a trimmed string with whitespace on both sides and stripping recovers it, so `strip()` ignores leading and trailing whitespace alike |
| Text.StripTrimmed | claude_cli.py:55-57 | a string with no whitespace at either end, such as `///` or `/quit`, is its own stripped form |
| Text.StripIdempotent | claude_cli.py:55 | stripping an already stripped text changes nothing |
| Text.JoinLength | claude_cli.py:58 | for a non-empty list of lines, the joined text is as long as the lines together plus one separator per gap between neighbouring lines |
| Text.JoinSnoc | claude_cli.py:58-62 | buffering one more line extends the joined text by one separator and that line |
| Text.SplitJoinParagraphs | claude_cli.py:58 | a non-empty list of lines without line feeds, joined by `"\n\n"`, is recovered by splitting on `"\n\n"`, empty lines included; the empty list joins to `""`, which splits to `[""]` |
| InputFraming.FirstStop | claude_cli.py:52-62 | the position where framing stops: every earlier event is an ordinary line, and the event there is a command, end of input or an interrupt |
| InputFraming.GetMultilineInput | claude_cli.py:48-69 | the event-by-event loop returns exactly the reference framing, both the outcome and the number of events consumed |
| InputFraming.StopAfter | claude_cli.py:52-69 | ordinary lines followed by a deciding event are framed by that event alone, consuming exactly through it, whatever follows |
| InputFraming.QuitLineQuits | claude_cli.py:55-56 | a line stripping to `/quit` after any ordinary lines quits and discards the buffer, whatever follows |
| InputFraming.SentinelSubmits | claude_cli.py:57-62 | a line stripping to `///` after ordinary lines submits those lines joined by `"\n\n"`, without the sentinel, consuming up to the sentinel |
| InputFraming.EndOfInputLikeSentinel | claude_cli.py:63-67 | end of input yields exactly what the sentinel would have yielded at that point |
| InputFraming.ExhaustedStreamSubmits | claude_cli.py:63-67 | when the stream closes after ordinary lines, all of them are submitted joined by `"\n\n"` |
| InputFraming.InterruptLikeQuit | claude_cli.py:68-69 | an interrupt is indistinguishable from a `/quit` line |
| InputFraming.FirstStopIs | claude_cli.py:52-62 | the stopping position is the only position before which every event is an ordinary line and at which the event is a command, end of input or an interrupt |
| InputFraming.LaterEventsIgnored | claude_cli.py:52-69 | framing consumes exactly up to the deciding event, and events after it never change the outcome |
| InputFraming.SubmittedTextDeterminesLines | claude_cli.py:58-64 | for a non-empty buffer of lines without line feeds, the submitted text determines the lines: they are stored unmodified and separated by one blank line (an empty buffer and a buffer holding one empty line both submit the empty text) |
| InputFraming.EmptyBufferAmbiguous | claude_cli.py:57-62 | the sentinel alone and an empty line followed by the sentinel both submit the empty text, so the submitted text does not determine an empty buffer |
| InputFraming.PaddedSentinelSubmits | claude_cli.py:57-61 | `"  ///  "` submits the buffered lines: whitespace on both sides of the sentinel is ignored |
| InputFraming.PaddedQuitLineQuits | claude_cli.py:55-56 | `/quit` with any whitespace before and after it quits, whatever lines were buffered |
| InputFraming.PaddedQuitQuits | claude_cli.py:55-56 | `" /quit"` and U+001C followed by `/quit` both quit: leading whitespace before the command, the ASCII separator characters included, is ignored |
| InputFraming.EmptyLinesKept | claude_cli.py:58-62 | `line1`, an empty line, `line2`, then `///` submits `"line1\n\n\n\nline2"` |
| InputFraming.SentinelFirstSubmitsEmpty | claude_cli.py:57-61 | the sentinel as the first line submits the empty text |
| Session.PairsShape | claude_cli.py:125-128 | the messages written for N exchanges are 2N, user then assistant for each exchange in order |
| Session.PairsAlternate | claude_cli.py:125-128 | those messages alternate user, assistant, user, ... |
| Session.RunTranscript | claude_cli.py:97-133 | the final transcript is the starting transcript followed by every successful exchange before the first quit, in order |
| Session.TranscriptAfterRun | claude_cli.py:92-133 | after N successful turns the transcript has 2N messages plus one for a configured system message, is well formed, and holds the exchanges in submission order |
| Session.PairsWellFormed | claude_cli.py:93-95 | the initial transcript followed by written-out exchanges is well formed |
| Session.RunRequests | claude_cli.py:106-118 | one request per non-blank submission before the first quit, in order; each ends with the unstripped submitted text as a user message, and its history extends the starting transcript and is a prefix of the final transcript |
| Session.RequestAt | claude_cli.py:109-128 | the request made by a turn with no quit before it is the one numbered by the earlier submissions, and it holds the starting transcript, every earlier successful exchange as user then assistant messages in order, and the unstripped submitted text as the last user message |
| Session.RunAppend | claude_cli.py:97-128 | running turns with no quit and then further turns is running the first ones, then the rest from the transcript they left; requests and turns read add up |
| Session.QuitEndsLoop | claude_cli.py:101-104 | a quit ends the loop: turns after it are never read |
| Session.RunSnoc | claude_cli.py:97-133 | reading one more turn continues from the transcript the earlier turns left, appending at most one request |
| Session.FailureLeavesTranscript | claude_cli.py:109-133 | a failing request leaves the transcript exactly as the previous turns left it |
| Session.BlankSubmissionSkipped | claude_cli.py:106-107 | a blank submission makes no request, leaves the transcript unchanged and does not end the loop |
| Session.SuccessAppendsExchange | claude_cli.py:114-128 | a successful turn sends the transcript plus the user message, then appends exactly the user message and the reply, keeping every earlier message |
| Session.StepPreservesWellFormed | claude_cli.py:93-128 | every step keeps the transcript well formed and only appends to it |
| Session.ReadAllWithoutQuit | claude_cli.py:97-107 | without a quit the loop reads every turn and does not end |
| Session.ClosedInputNeverEnds | claude_cli.py:63-67 | with the input stream closed, every prompt submits the empty text without consuming input, and the loop skips it forever |
| Session.HelloExample | claude_cli.py:57-128 | `Hello` then `///` submits `Hello`; the request is the single user message and the reply `Hi!` gives a two-message transcript |

## Left out

- `get_env_path`, `save_api_key` and `setup_client` (claude_cli.py:17-46): reading and writing the credential file, file permissions, prompting and `sys.exit(1)` are operating-system input and output.
- The call to the completion service (claude_cli.py:111-118): it is a network request into a library that is not part of this model. It appears only as the abstract outcome `Success(text)` or `Failure`, and its `model` and `max_tokens` arguments are not modelled.
- Console output: the prompt, the status lines printed when a non-blank text is submitted (claude_cli.py:59-60 and 65-66), the Markdown rendering of replies (`format_response`) and the error and farewell messages. Printing does not change the transcript when it succeeds. An exception while rendering the reply (claude_cli.py:121-122) is caught by the handler at claude_cli.py:132 before the exchange is appended, so it is a `Failure` in the model: the exchange is not added. A `KeyboardInterrupt` raised while a status line is printed is not modelled either: at claude_cli.py:59-60 it is caught at line 68 and the submission becomes a quit, and at claude_cli.py:65-66 it escapes to the outer handler at lines 135-137 and ends the program.
- Option parsing with `click` (claude_cli.py:75-79) and the outer `KeyboardInterrupt` handler that exits with status 0 (claude_cli.py:135-137). An interrupt during the service call or the rendering of its reply is a `KeyboardInterrupt`, not an `Exception`, so it reaches that outer handler and ends the program; the model's `Failure` covers only exceptions caught inside the loop.
- Text.SkipSpacesShape: the whitespace set is the ASCII whitespace of `str.isspace()` (tab, line feed, vertical tab, form feed, carriage return, U+001C to U+001F, space). Python's `str.strip()` also removes the non-ASCII whitespace characters, such as U+0085, U+00A0 and U+2028.
- Text.SkipSpacesBackShape: the same ASCII-only whitespace set as `SkipSpacesShape`.
- Text.StripIsTrimmedSlice: the same ASCII-only whitespace set as `SkipSpacesShape`.

=== FILE: input_framing.dfy ===
/**
 Multi-line input framing (`get_multiline_input` in claude_cli.py).

 The terminal delivers a stream of events: a line typed by the user, the end
 of the input stream (Ctrl-D, `EOFError`) or an interrupt (Ctrl-C,
 `KeyboardInterrupt`). Framing reads events until one of them decides the
 round, and yields either `Quit` (the function returns `None`) or the text to
 submit. Lines are buffered verbatim; `/quit` and the sentinel `///` are
 recognised after `strip()`, and `/quit` is tested first.

 The event sequence is what the terminal delivers before the stream is
 closed: once it is exhausted, `input()` raises `EOFError`, so running out of
 events behaves like an `EOF` event.
 */
module InputFraming {
  import opened Text

  datatype Event = Line(s: string) | EOF | Interrupt

  /** What one prompt yields: `None` in the source, or a text to submit. */
  datatype Input = Quit | Submit(text: string)

  /** The framed input together with the number of events it consumed. */
  datatype Framed = Framed(input: Input, consumed: nat)

  const QuitCommand: string := "/quit"
  const Sentinel: string := "///"
  const Separator: string := "\n\n"

  predicate IsQuitLine(e: Event) {
    e.Line? && Strip(e.s) == QuitCommand
  }

  predicate IsSentinelLine(e: Event) {
    e.Line? && Strip(e.s) == Sentinel
  }

  /** An event that is simply added to the buffer: a line that is neither
      command. Every other event ends the round. */
  predicate Buffered(e: Event) {
    e.Line? && !IsQuitLine(e) && !IsSentinelLine(e)
  }

  predicate AllBuffered(events: seq<Event>) {
    forall i | 0 <= i < |events| :: Buffered(events[i])
  }

  /** The texts of a run of lines, unmodified. */
  function Texts(events: seq<Event>): seq<string>
    requires forall i | 0 <= i < |events| :: events[i].Line?
  {
    seq(|events|, i requires 0 <= i < |events| => events[i].s)
  }

  /** The index of the first event that ends the round, or `|events|` when
      every event is an ordinary line. */
  function FirstStop(events: seq<Event>): (k: nat)
    ensures k <= |events|
    ensures forall i | 0 <= i < k :: Buffered(events[i])
    ensures k < |events| ==> !Buffered(events[k])
    decreases |events|
  {
    if |events| == 0 || !Buffered(events[0]) then 0
    else 1 + FirstStop(events[1..])
  }

  /** What the event that ends the round makes of the buffered lines. */
  function Decide(stop: Event, lines: seq<string>): Input {
    match stop
    case Interrupt => Quit
    case EOF => Submit(Join(Separator, lines))
    case Line(s) => if Strip(s) == QuitCommand then Quit else Submit(Join(Separator, lines))
  }

  /** Reference definition of framing: the ordinary lines before the first
      deciding event are buffered, and the deciding event (or the end of the
      stream, which acts as end of input) decides what becomes of them. */
  function Frame(events: seq<Event>): Framed {
    var k := FirstStop(events);
    var lines := Texts(events[..k]);
    if k == |events| then Framed(Submit(Join(Separator, lines)), k)
    else Framed(Decide(events[k], lines), k + 1)
  }

  /** The stopping position is the only one with its characterisation. */
  lemma FirstStopIs(events: seq<Event>, k: nat)
    requires k <= |events|
    requires forall i | 0 <= i < k :: Buffered(events[i])
    requires k < |events| ==> !Buffered(events[k])
    ensures FirstStop(events) == k
  {
  }

  /** The loop of `get_multiline_input`, one event per iteration. It computes
      exactly the reference framing. */
  method GetMultilineInput(events: seq<Event>) returns (input: Input, consumed: nat)
    ensures Framed(input, consumed) == Frame(events)
  {
    var lines: seq<string> := [];
    var i := 0;
    while i < |events|
      invariant i <= |events|
      invariant forall j | 0 <= j < i :: Buffered(events[j])
      invariant lines == Texts(events[..i])
    {
      var e := events[i];
      match e {
        case Interrupt =>
          FirstStopIs(events, i);
          return Quit, i + 1;
        case EOF =>
          FirstStopIs(events, i);
          return Submit(Join(Separator, lines)), i + 1;
        case Line(s) =>
          if Strip(s) == QuitCommand {
            FirstStopIs(events, i);
            return Quit, i + 1;
          }
          if Strip(s) == Sentinel {
            FirstStopIs(events, i);
            return Submit(Join(Separator, lines)), i + 1;
          }
          lines := lines + [s];
      }
      assert events[..i + 1] == events[..i] + [e];
      i := i + 1;
    }
    assert events[..i] == events;
    FirstStopIs(events, |events|);
    return Submit(Join(Separator, lines)), |events|;
  }

  /** Framing at a known stopping position. */
  lemma FrameStopsAt(events: seq<Event>, k: nat)
    requires k < |events|
    requires forall i | 0 <= i < k :: Buffered(events[i])
    requires !Buffered(events[k])
    ensures Frame(events) == Framed(Decide(events[k], Texts(events[..k])), k + 1)
  {
    FirstStopIs(events, k);
  }

  /** Framing ordinary lines followed by a deciding event. */
  lemma StopAfter(pre: seq<Event>, stop: Event, more: seq<Event>)
    requires AllBuffered(pre) && !Buffered(stop)
    ensures Frame(pre + [stop] + more) == Framed(Decide(stop, Texts(pre)), |pre| + 1)
  {
    var events := pre + [stop] + more;
    assert events[|pre|] == stop;
    assert events[..|pre|] == pre;
    FrameStopsAt(events, |pre|);
  }

  /** A line that strips to `/quit` ends the session and discards the buffer,
      whatever was typed before it and whatever follows. */
  lemma QuitLineQuits(pre: seq<Event>, s: string, more: seq<Event>)
    requires AllBuffered(pre)
    requires Strip(s) == QuitCommand
    ensures Frame(pre + [Line(s)] + more) == Framed(Quit, |pre| + 1)
  {
    StopAfter(pre, Line(s), more);
  }

  /** A line that strips to `///` submits the buffered lines joined by a
      blank line; the sentinel itself is not part of the text. */
  lemma SentinelSubmits(pre: seq<Event>, s: string, more: seq<Event>)
    requires AllBuffered(pre)
    requires Strip(s) == Sentinel
    ensures Frame(pre + [Line(s)] + more) == Framed(Submit(Join(Separator, Texts(pre))), |pre| + 1)
  {
    StopAfter(pre, Line(s), more);
  }

  /** End of input submits exactly what the sentinel would have submitted. */
  lemma EndOfInputLikeSentinel(pre: seq<Event>, more: seq<Event>, more': seq<Event>)
    requires AllBuffered(pre)
    ensures Frame(pre + [EOF] + more) == Frame(pre + [Line(Sentinel)] + more')
  {
    StopAfter(pre, EOF, more);
    StripTrimmed(Sentinel);
    SentinelSubmits(pre, Sentinel, more');
  }

  /** An exhausted stream submits every buffered line, as at end of input. */
  lemma ExhaustedStreamSubmits(pre: seq<Event>)
    requires AllBuffered(pre)
    ensures Frame(pre) == Framed(Submit(Join(Separator, Texts(pre))), |pre|)
  {
    FirstStopIs(pre, |pre|);
    assert pre[..|pre|] == pre;
  }

  /** An interrupt is indistinguishable from typing `/quit`. */
  lemma InterruptLikeQuit(pre: seq<Event>, more: seq<Event>, more': seq<Event>)
    requires AllBuffered(pre)
    ensures Frame(pre + [Interrupt] + more) == Frame(pre + [Line(QuitCommand)] + more')
  {
    StopAfter(pre, Interrupt, more);
    StripTrimmed(QuitCommand);
    QuitLineQuits(pre, QuitCommand, more');
  }

  /** Cutting a sequence of events around one of them. */
  lemma SplitAt(events: seq<Event>, more: seq<Event>, k: nat)
    requires k < |events|
    ensures events == events[..k] + [events[k]] + events[k + 1..]
    ensures events + more == events[..k] + [events[k]] + (events[k + 1..] + more)
  {
    assert events == events[..k] + events[k..];
    assert events[k..] == [events[k]] + events[k + 1..];
  }

  /** Framing stops at the deciding event: it consumes exactly up to that
      event, and events after it cannot change the outcome. */
  lemma LaterEventsIgnored(events: seq<Event>, more: seq<Event>)
    requires FirstStop(events) < |events|
    ensures Frame(events + more) == Frame(events)
    ensures Frame(events).consumed == FirstStop(events) + 1
  {
    var k := FirstStop(events);
    var pre := events[..k];
    assert AllBuffered(pre) by {
      forall i | 0 <= i < k ensures Buffered(pre[i]) {
        assert pre[i] == events[i];
      }
    }
    SplitAt(events, more, k);
    StopAfter(pre, events[k], events[k + 1..]);
    StopAfter(pre, events[k], events[k + 1..] + more);
  }

  /** Whenever framing submits a text and the buffered lines are genuine
      terminal lines (no line feed inside), the text determines the buffer:
      splitting it on blank lines gives back the lines, empty ones included. */
  lemma SubmittedTextDeterminesLines(events: seq<Event>)
    requires FirstStop(events) > 0
    requires forall i | 0 <= i < FirstStop(events) :: SingleLine(events[i].s)
    ensures Frame(events).input.Submit? ==>
              SplitParagraphs(Frame(events).input.text) == Texts(events[..FirstStop(events)])
  {
    var k := FirstStop(events);
    var lines := Texts(events[..k]);
    SplitJoinParagraphs(lines);
  }

  /** The exception to `SubmittedTextDeterminesLines`: an empty buffer and a
      buffer holding one empty line both submit the empty text. */
  lemma EmptyBufferAmbiguous()
    ensures Frame([Line("///")]).input == Submit("")
    ensures Frame([Line(""), Line("///")]).input == Submit("")
  {
    StripTrimmed(Sentinel);
    SentinelFirstSubmitsEmpty(Sentinel, []);
    assert [Line(Sentinel)] + [] == [Line("///")];
    assert AllBuffered([Line("")]) by {
      StripTrimmed("");
    }
    SentinelSubmits([Line("")], Sentinel, []);
    assert [Line("")] + [Line(Sentinel)] + [] == [Line(""), Line("///")];
    assert Texts([Line("")]) == [""];
  }

  /** `"  ///  "` submits: leading and trailing whitespace around the
      sentinel are both ignored. */
  lemma PaddedSentinelSubmits(pre: seq<Event>)
    requires AllBuffered(pre)
    ensures Frame(pre + [Line("  ///  ")]).input == Submit(Join(Separator, Texts(pre)))
  {
    assert Strip("  ///  ") == Sentinel by {
      StripPadded("  ", Sentinel, "  ");
      assert "  " + Sentinel + "  " == "  ///  ";
    }
    StopAfter(pre, Line("  ///  "), []);
    assert pre + [Line("  ///  ")] + [] == pre + [Line("  ///  ")];
  }

  /** `/quit` with any whitespace on either side quits. */
  lemma PaddedQuitLineQuits(pre: seq<Event>, p: string, q: string)
    requires AllBuffered(pre) && Blank(p) && Blank(q)
    ensures Frame(pre + [Line(p + QuitCommand + q)]).input == Quit
  {
    StripPadded(p, QuitCommand, q);
    StopAfter(pre, Line(p + QuitCommand + q), []);
    assert pre + [Line(p + QuitCommand + q)] + [] == pre + [Line(p + QuitCommand + q)];
  }

  /** `" /quit"` and `"\U{001C}/quit"` quit: whitespace before the command,
      the ASCII separator characters included, is ignored. */
  lemma PaddedQuitQuits(pre: seq<Event>)
    requires AllBuffered(pre)
    ensures Frame(pre + [Line(" /quit")]).input == Quit
    ensures Frame(pre + [Line("\U{001C}/quit")]).input == Quit
  {
    assert " " + QuitCommand + "" == " /quit";
    assert "\U{001C}" + QuitCommand + "" == "\U{001C}/quit";
    PaddedQuitLineQuits(pre, " ", "");
    PaddedQuitLineQuits(pre, "\U{001C}", "");
  }

  /** The lines of the `EmptyLinesKept` example are buffered and `///` is not. */
  lemma ExampleLinesBuffered()
    ensures AllBuffered([Line("line1"), Line(""), Line("line2")])
    ensures !Buffered(Line("///"))
  {
    StripTrimmed("line1");
    StripTrimmed("line2");
    StripTrimmed("///");
  }

  /** The join of the `EmptyLinesKept` example, worked out. */
  lemma ExampleJoin()
    ensures Join(Separator, ["line1", "", "line2"]) == "line1\n\n\n\nline2"
  {
    assert ["line1", "", "line2"][1..] == ["", "line2"];
    assert ["", "line2"][1..] == ["line2"];
  }

  /** Empty lines are kept: `line1`, an empty line and `line2` give
      `line1`, two blank-line separators around the empty element, `line2`. */
  lemma EmptyLinesKept()
    ensures Frame([Line("line1"), Line(""), Line("line2"), Line("///")]).input
              == Submit("line1\n\n\n\nline2")
  {
    var pre := [Line("line1"), Line(""), Line("line2")];
    ExampleLinesBuffered();
    StopAfter(pre, Line("///"), []);
    assert pre + [Line("///")] + [] == [Line("line1"), Line(""), Line("line2"), Line("///")];
    assert Texts(pre) == ["line1", "", "line2"];
    ExampleJoin();
  }

  /** The sentinel as the very first line submits the empty text. */
  lemma SentinelFirstSubmitsEmpty(s: string, more: seq<Event>)
    requires Strip(s) == Sentinel
    ensures Frame([Line(s)] + more) == Framed(Submit(""), 1)
  {
    StopAfter([], Line(s), more);
    assert [] + [Line(s)] + more == [Line(s)] + more;
  }
}

=== FILE: session.dfy ===
/**
 The conversation loop of `chat_with_claude` in claude_cli.py.

 The transcript is the list of role-tagged messages sent with every request.
 It starts with the optional system message; each turn takes one framed input
 and, if a request is made, the completion service's outcome. A quit input
 ends the loop; a blank submission is skipped without a request; otherwise the
 request is the transcript followed by the user's message, and only a
 successful reply extends the transcript, by the user message and then the
 assistant's reply. Any failure (an API error, or any other exception raised
 before the transcript is extended) leaves the transcript as it was.
 */
module Session {
  import opened Text
  import opened InputFraming

  datatype Role = System | User | Assistant

  datatype Message = Message(role: Role, content: string)

  /** The completion service's outcome for one request, as seen by the loop:
      the reply text, or any exception raised before the transcript is extended. */
  datatype Reply = Success(text: string) | Failure

  /** One iteration of the loop: the framed input and the outcome the service
      would give if it is asked (ignored when no request is made). */
  datatype Turn = Turn(input: Input, reply: Reply)

  /** The transcript before the first turn. The system option is absent when
      it is empty, as Python's truthiness test treats `None` and `""` alike. */
  function InitialTranscript(system: string): seq<Message> {
    if system != "" then [Message(System, system)] else []
  }

  /** A submission the loop skips: blank after `strip()`. */
  predicate IsBlankSubmission(input: Input) {
    input.Submit? && Strip(input.text) == ""
  }

  /** A turn that makes a request to the completion service. */
  predicate Sends(turn: Turn) {
    turn.input.Submit? && !IsBlankSubmission(turn.input)
  }

  /** What one iteration does to the transcript. */
  datatype Step = Stop | Skip | Send(request: seq<Message>, next: seq<Message>)

  function StepOf(transcript: seq<Message>, turn: Turn): Step {
    match turn.input
    case Quit => Stop
    case Submit(text) =>
      if IsBlankSubmission(turn.input) then Skip
      else
        var request := transcript + [Message(User, text)];
        match turn.reply
        case Success(reply) => Send(request, transcript + [Message(User, text), Message(Assistant, reply)])
        case Failure => Send(request, transcript)
  }

  /** The transcript the loop carries into the next turn, when this turn does
      not end it. */
  function NextTranscript(transcript: seq<Message>, turn: Turn): seq<Message> {
    match StepOf(transcript, turn)
    case Send(_, next) => next
    case _ => transcript
  }

  /** The state of the loop after it has read some turns: the transcript, the
      requests made in order, how many turns were read, and whether the loop
      has ended. */
  datatype Conversation = Conversation(transcript: seq<Message>, requests: seq<seq<Message>>, read: nat, ended: bool)

  /** The loop as a fold over the turns, starting from `transcript`. */
  function RunFrom(transcript: seq<Message>, turns: seq<Turn>): Conversation
    decreases |turns|
  {
    if |turns| == 0 then Conversation(transcript, [], 0, false)
    else
      match StepOf(transcript, turns[0])
      case Stop => Conversation(transcript, [], 1, true)
      case Skip =>
        var c := RunFrom(transcript, turns[1..]);
        c.(read := c.read + 1)
      case Send(request, next) =>
        var c := RunFrom(next, turns[1..]);
        c.(requests := [request] + c.requests, read := c.read + 1)
  }

  function Run(system: string, turns: seq<Turn>): Conversation {
    RunFrom(InitialTranscript(system), turns)
  }

  // Independent descriptions of what the loop should have done.

  predicate NoQuit(turns: seq<Turn>) {
    forall i | 0 <= i < |turns| :: !turns[i].input.Quit?
  }

  /** The successful exchanges (submitted text, reply) before the first quit,
      in submission order. */
  function Exchanges(turns: seq<Turn>): seq<(string, string)>
    decreases |turns|
  {
    if |turns| == 0 || turns[0].input.Quit? then []
    else if Sends(turns[0]) && turns[0].reply.Success? then
      [(turns[0].input.text, turns[0].reply.text)] + Exchanges(turns[1..])
    else Exchanges(turns[1..])
  }

  /** The texts sent to the service before the first quit, in order. */
  function Submissions(turns: seq<Turn>): seq<string>
    decreases |turns|
  {
    if |turns| == 0 || turns[0].input.Quit? then []
    else if Sends(turns[0]) then [turns[0].input.text] + Submissions(turns[1..])
    else Submissions(turns[1..])
  }

  /** Exchanges written out as messages: user, then assistant, for each. */
  function Pairs(exchanges: seq<(string, string)>): seq<Message>
    decreases |exchanges|
  {
    if |exchanges| == 0 then []
    else [Message(User, exchanges[0].0), Message(Assistant, exchanges[0].1)] + Pairs(exchanges[1..])
  }

  /** The transcript invariant: the initial transcript, then user and
      assistant messages strictly alternating, in complete pairs. */
  predicate WellFormed(transcript: seq<Message>, system: string) {
    var init := InitialTranscript(system);
    && |init| <= |transcript|
    && transcript[..|init|] == init
    && (|transcript| - |init|) % 2 == 0
    && (forall i | |init| <= i < |transcript| ::
          transcript[i].role == (if (i - |init|) % 2 == 0 then User else Assistant))
  }

  lemma {:induction false} PairsShape(exchanges: seq<(string, string)>)
    ensures |Pairs(exchanges)| == 2 * |exchanges|
    ensures forall k | 0 <= k < |exchanges| ::
              Pairs(exchanges)[2 * k] == Message(User, exchanges[k].0)
              && Pairs(exchanges)[2 * k + 1] == Message(Assistant, exchanges[k].1)
    decreases |exchanges|
  {
    if |exchanges| > 0 {
      PairsShape(exchanges[1..]);
      var p := Pairs(exchanges);
      var rest := Pairs(exchanges[1..]);
      forall k | 1 <= k < |exchanges|
        ensures p[2 * k] == Message(User, exchanges[k].0)
        ensures p[2 * k + 1] == Message(Assistant, exchanges[k].1)
      {
        assert p[2 * k] == rest[2 * (k - 1)];
        assert p[2 * k + 1] == rest[2 * (k - 1) + 1];
      }
    }
  }

  /** The transcript the loop ends with is the starting transcript followed
      by every successful exchange before the first quit, in order. */
  lemma {:induction false} RunTranscript(transcript: seq<Message>, turns: seq<Turn>)
    ensures RunFrom(transcript, turns).transcript == transcript + Pairs(Exchanges(turns))
    decreases |turns|
  {
    if |turns| > 0 && !turns[0].input.Quit? {
      if !Sends(turns[0]) {
        RunTranscript(transcript, turns[1..]);
      } else {
        RunTranscript(StepOf(transcript, turns[0]).next, turns[1..]);
      }
      if Sends(turns[0]) && turns[0].reply.Success? {
        var ex := (turns[0].input.text, turns[0].reply.text);
        assert Pairs([ex] + Exchanges(turns[1..]))
            == [Message(User, ex.0), Message(Assistant, ex.1)] + Pairs(Exchanges(turns[1..])) by {
          assert ([ex] + Exchanges(turns[1..]))[1..] == Exchanges(turns[1..]);
        }
      }
    }
  }

  /** After the loop the transcript holds the system message (if one is
      configured) and then, for the N successful turns, N user/assistant
      pairs in submission order: 2N messages, plus one for the system message. */
  lemma TranscriptAfterRun(system: string, turns: seq<Turn>)
    ensures var t := Run(system, turns).transcript;
            var n := |Exchanges(turns)|;
            var off := if system != "" then 1 else 0;
            && |t| == 2 * n + off
            && WellFormed(t, system)
            && (forall k | 0 <= k < n ::
                  t[off + 2 * k] == Message(User, Exchanges(turns)[k].0)
                  && t[off + 2 * k + 1] == Message(Assistant, Exchanges(turns)[k].1))
  {
    var init := InitialTranscript(system);
    var ex := Exchanges(turns);
    var t := Run(system, turns).transcript;
    RunTranscript(init, turns);
    assert t == init + Pairs(ex);
    PairsShape(ex);
    PairsWellFormed(system, ex);
    forall k | 0 <= k < |ex|
      ensures t[|init| + 2 * k] == Message(User, ex[k].0)
      ensures t[|init| + 2 * k + 1] == Message(Assistant, ex[k].1)
    {
      assert t[|init| + 2 * k] == Pairs(ex)[2 * k];
      assert t[|init| + 2 * k + 1] == Pairs(ex)[2 * k + 1];
    }
  }

  /** The initial transcript followed by written-out exchanges is well formed. */
  lemma PairsWellFormed(system: string, exchanges: seq<(string, string)>)
    ensures WellFormed(InitialTranscript(system) + Pairs(exchanges), system)
  {
    var init := InitialTranscript(system);
    var t := init + Pairs(exchanges);
    PairsShape(exchanges);
    PairsAlternate(exchanges);
    assert t[..|init|] == init;
    forall i | |init| <= i < |t|
      ensures t[i].role == (if (i - |init|) % 2 == 0 then User else Assistant)
    {
      assert t[i] == Pairs(exchanges)[i - |init|];
    }
  }

  lemma {:induction false} PairsAlternate(exchanges: seq<(string, string)>)
    ensures forall i | 0 <= i < |Pairs(exchanges)| ::
              Pairs(exchanges)[i].role == (if i % 2 == 0 then User else Assistant)
    decreases |exchanges|
  {
    if |exchanges| > 0 {
      PairsAlternate(exchanges[1..]);
      var p := Pairs(exchanges);
      var rest := Pairs(exchanges[1..]);
      forall i | 2 <= i < |p|
        ensures p[i].role == (if i % 2 == 0 then User else Assistant)
      {
        assert p[i] == rest[i - 2];
      }
    }
  }

  /** `request` is one user message carrying `text`, appended to a history
      that extends `start` and is a prefix of `final`. */
  predicate RequestFits(request: seq<Message>, text: string, start: seq<Message>, final: seq<Message>) {
    && |request| > 0
    && request[|request| - 1] == Message(User, text)
    && start <= request[..|request| - 1] <= final
  }

  /** Every request the loop makes is the transcript at that moment followed
      by one user message carrying the unstripped submitted text; the
      requests are made for exactly the non-blank submissions before the
      first quit, in order; and the history each request carries is a prefix
      of the final transcript (the transcript only grows). */
  lemma {:induction false} RunRequests(transcript: seq<Message>, turns: seq<Turn>)
    ensures |RunFrom(transcript, turns).requests| == |Submissions(turns)|
    ensures forall k | 0 <= k < |Submissions(turns)| ::
              RequestFits(RunFrom(transcript, turns).requests[k], Submissions(turns)[k],
                          transcript, RunFrom(transcript, turns).transcript)
    decreases |turns|, 1
  {
    if |turns| > 0 && !turns[0].input.Quit? {
      if !Sends(turns[0]) {
        RunRequests(transcript, turns[1..]);
      } else {
        RunRequestsSend(transcript, turns);
      }
    }
  }

  /** The inductive step of `RunRequests` for a turn that makes a request. */
  lemma {:induction false} RunRequestsSend(transcript: seq<Message>, turns: seq<Turn>)
    requires |turns| > 0 && Sends(turns[0])
    ensures |RunFrom(transcript, turns).requests| == |Submissions(turns)|
    ensures forall k | 0 <= k < |Submissions(turns)| ::
              RequestFits(RunFrom(transcript, turns).requests[k], Submissions(turns)[k],
                          transcript, RunFrom(transcript, turns).transcript)
    decreases |turns|, 0
  {
    var step := StepOf(transcript, turns[0]);
    var next := step.next;
    RunRequests(next, turns[1..]);
    RunTranscript(next, turns[1..]);
    var c := RunFrom(transcript, turns);
    var rest := RunFrom(next, turns[1..]);
    var subs := Submissions(turns);
    var restSubs := Submissions(turns[1..]);
    assert c.requests == [step.request] + rest.requests;
    assert c.transcript == rest.transcript;
    assert subs == [turns[0].input.text] + restSubs;
    assert transcript <= next <= c.transcript;
    forall k | 0 <= k < |subs|
      ensures RequestFits(c.requests[k], subs[k], transcript, c.transcript)
    {
      if k == 0 {
        assert step.request[..|step.request| - 1] == transcript;
      } else {
        assert c.requests[k] == rest.requests[k - 1];
        assert subs[k] == restSubs[k - 1];
        assert RequestFits(rest.requests[k - 1], restSubs[k - 1], next, rest.transcript);
      }
    }
  }

  /** Running turns that contain no quit and then more turns is running the
      first turns, then the rest from the transcript they left. */
  lemma {:induction false} RunAppend(transcript: seq<Message>, pre: seq<Turn>, rest: seq<Turn>)
    requires NoQuit(pre)
    ensures var a := RunFrom(transcript, pre);
            var b := RunFrom(a.transcript, rest);
            RunFrom(transcript, pre + rest)
              == Conversation(b.transcript, a.requests + b.requests, a.read + b.read, b.ended)
    decreases |pre|
  {
    if |pre| == 0 {
      assert pre + rest == rest;
    } else {
      assert (pre + rest)[1..] == pre[1..] + rest;
      assert NoQuit(pre[1..]) by {
        forall i | 0 <= i < |pre[1..]| ensures !pre[1..][i].input.Quit? {
          assert pre[1..][i] == pre[i + 1];
        }
      }
      assert (pre + rest)[0] == pre[0];
      match StepOf(transcript, pre[0])
      case Skip =>
        RunAppend(transcript, pre[1..], rest);
      case Send(request, next) =>
        RunAppend(next, pre[1..], rest);
        var a := RunFrom(next, pre[1..]);
        var b := RunFrom(a.transcript, rest);
        assert [request] + (a.requests + b.requests) == ([request] + a.requests) + b.requests;
    }
  }

  /** The request made by the turn at index `j`, when no quit comes before
      it: it is the request numbered by the submissions sent before it, and
      it carries the starting transcript, every successful exchange before
      `j` written out in order, and the unstripped submitted text. */
  lemma RequestAt(transcript: seq<Message>, turns: seq<Turn>, j: nat)
    requires j < |turns| && NoQuit(turns[..j]) && Sends(turns[j])
    ensures |Submissions(turns[..j])| < |RunFrom(transcript, turns).requests|
    ensures RunFrom(transcript, turns).requests[|Submissions(turns[..j])|]
            == transcript + Pairs(Exchanges(turns[..j])) + [Message(User, turns[j].input.text)]
  {
    var pre := turns[..j];
    var rest := turns[j..];
    assert turns == pre + rest;
    RunAppend(transcript, pre, rest);
    RunRequests(transcript, pre);
    RunTranscript(transcript, pre);
    var a := RunFrom(transcript, pre);
    assert rest[0] == turns[j];
    var b := RunFrom(a.transcript, rest);
    assert b.requests[0] == a.transcript + [Message(User, turns[j].input.text)];
    assert (a.requests + b.requests)[|a.requests|] == b.requests[0];
  }

  /** A quit ends the loop: whatever turns would follow it are never read. */
  lemma {:induction false} QuitEndsLoop(transcript: seq<Message>, turns: seq<Turn>, i: nat, more: seq<Turn>)
    requires i < |turns| && turns[i].input.Quit?
    ensures RunFrom(transcript, turns + more) == RunFrom(transcript, turns)
    ensures RunFrom(transcript, turns).ended
    decreases |turns|
  {
    if !turns[0].input.Quit? {
      assert (turns + more)[1..] == turns[1..] + more;
      QuitEndsLoop(NextTranscript(transcript, turns[0]), turns[1..], i - 1, more);
    }
  }

  /** Reading one more turn after turns that contain no quit: the loop picks
      up from the transcript the earlier turns left. */
  lemma {:induction false} RunSnoc(transcript: seq<Message>, turns: seq<Turn>, turn: Turn)
    requires NoQuit(turns)
    ensures var before := RunFrom(transcript, turns);
            var after := RunFrom(transcript, turns + [turn]);
            match StepOf(before.transcript, turn)
            case Stop => after == before.(read := before.read + 1, ended := true)
            case Skip => after == before.(read := before.read + 1)
            case Send(request, next) =>
              after == Conversation(next, before.requests + [request], before.read + 1, false)
    decreases |turns|
  {
    if |turns| == 0 {
      assert [] + [turn] == [turn];
    } else {
      assert (turns + [turn])[1..] == turns[1..] + [turn];
      assert NoQuit(turns[1..]) by {
        forall i | 0 <= i < |turns[1..]| ensures !turns[1..][i].input.Quit? {
          assert turns[1..][i] == turns[i + 1];
        }
      }
      match StepOf(transcript, turns[0])
      case Skip =>
        RunSnoc(transcript, turns[1..], turn);
      case Send(request, next) =>
        RunSnoc(next, turns[1..], turn);
    }
  }

  /** A turn whose request fails leaves the transcript exactly as the
      previous turns left it; the request is still recorded as made. */
  lemma FailureLeavesTranscript(system: string, turns: seq<Turn>, text: string)
    requires NoQuit(turns)
    requires Strip(text) != ""
    ensures Run(system, turns + [Turn(Submit(text), Failure)]).transcript == Run(system, turns).transcript
    ensures Run(system, turns + [Turn(Submit(text), Failure)]).requests
            == Run(system, turns).requests + [Run(system, turns).transcript + [Message(User, text)]]
  {
    RunSnoc(InitialTranscript(system), turns, Turn(Submit(text), Failure));
  }

  /** A blank submission makes no request and changes nothing but the count
      of turns read, whatever the service would have replied. */
  lemma BlankSubmissionSkipped(system: string, turns: seq<Turn>, text: string, reply: Reply)
    requires NoQuit(turns)
    requires Strip(text) == ""
    ensures Run(system, turns + [Turn(Submit(text), reply)]).transcript == Run(system, turns).transcript
    ensures Run(system, turns + [Turn(Submit(text), reply)]).requests == Run(system, turns).requests
    ensures !Run(system, turns + [Turn(Submit(text), reply)]).ended
  {
    RunSnoc(InitialTranscript(system), turns, Turn(Submit(text), reply));
    ReadAllWithoutQuit(InitialTranscript(system), turns);
  }

  /** A successful turn extends the transcript by exactly the user message and
      then the reply; every earlier message stays where it was. */
  lemma SuccessAppendsExchange(system: string, turns: seq<Turn>, text: string, reply: string)
    requires NoQuit(turns)
    requires Strip(text) != ""
    ensures Run(system, turns + [Turn(Submit(text), Success(reply))]).transcript
            == Run(system, turns).transcript + [Message(User, text), Message(Assistant, reply)]
    ensures Run(system, turns + [Turn(Submit(text), Success(reply))]).requests
            == Run(system, turns).requests + [Run(system, turns).transcript + [Message(User, text)]]
  {
    RunSnoc(InitialTranscript(system), turns, Turn(Submit(text), Success(reply)));
  }

  /** Each step keeps the transcript well formed, and only ever appends to it. */
  lemma StepPreservesWellFormed(transcript: seq<Message>, system: string, turn: Turn)
    requires WellFormed(transcript, system)
    ensures StepOf(transcript, turn).Send? ==>
              && WellFormed(StepOf(transcript, turn).next, system)
              && transcript <= StepOf(transcript, turn).next
  {
    var init := InitialTranscript(system);
    if StepOf(transcript, turn).Send? {
      var next := StepOf(transcript, turn).next;
      assert next[..|transcript|] == transcript;
      assert next[..|init|] == transcript[..|init|];
    }
  }

  /** With the input stream closed, every prompt yields the empty submission
      and consumes no event, and the loop skips it: the loop reads on
      without ever reaching a quit. */
  lemma ClosedInputNeverEnds(transcript: seq<Message>, reply: Reply, n: nat)
    ensures Frame([]) == Framed(Submit(""), 0)
    ensures var c := RunFrom(transcript, seq(n, _ => Turn(Frame([]).input, reply)));
            c.transcript == transcript && c.requests == [] && c.read == n && !c.ended
  {
    assert Frame([]) == Framed(Submit(""), 0) by {
      ExhaustedStreamSubmits([]);
    }
    var turns := seq(n, _ => Turn(Frame([]).input, reply));
    RunTranscript(transcript, turns);
    RunRequests(transcript, turns);
    assert NoQuit(turns);
    ReadAllWithoutQuit(transcript, turns);
    assert Exchanges(turns) == [] && Submissions(turns) == [] by {
      NothingSent(turns);
    }
  }

  lemma {:induction false} NothingSent(turns: seq<Turn>)
    requires forall i | 0 <= i < |turns| :: IsBlankSubmission(turns[i].input)
    ensures Exchanges(turns) == [] && Submissions(turns) == []
    decreases |turns|
  {
    if |turns| > 0 {
      NothingSent(turns[1..]);
    }
  }

  /** Without a quit the loop reads every turn and does not end. */
  lemma {:induction false} ReadAllWithoutQuit(transcript: seq<Message>, turns: seq<Turn>)
    requires NoQuit(turns)
    ensures RunFrom(transcript, turns).read == |turns|
    ensures !RunFrom(transcript, turns).ended
    decreases |turns|
  {
    if |turns| > 0 {
      ReadAllWithoutQuit(NextTranscript(transcript, turns[0]), turns[1..]);
    }
  }

  /** `Hello` then the sentinel submits `Hello`; the service is asked with the
      single user message, and on the reply `Hi!` the transcript is that
      exchange. */
  lemma HelloExample()
    ensures Frame([Line("Hello"), Line("///")]) == Framed(Submit("Hello"), 2)
    ensures Run("", [Turn(Submit("Hello"), Success("Hi!"))]).requests == [[Message(User, "Hello")]]
    ensures Run("", [Turn(Submit("Hello"), Success("Hi!"))]).transcript
            == [Message(User, "Hello"), Message(Assistant, "Hi!")]
  {
    StripTrimmed("Hello");
    assert Frame([Line("Hello"), Line("///")]) == Framed(Submit("Hello"), 2) by {
      assert AllBuffered([Line("Hello")]);
      StripTrimmed(Sentinel);
      SentinelSubmits([Line("Hello")], Sentinel, []);
      assert [Line("Hello")] + [Line(Sentinel)] + [] == [Line("Hello"), Line("///")];
      assert Texts([Line("Hello")]) == ["Hello"];
    }
    var turn := Turn(Submit("Hello"), Success("Hi!"));
    SuccessAppendsExchange("", [], "Hello", "Hi!");
    assert [] + [turn] == [turn];
    assert Run("", []) == Conversation([], [], 0, false);
    var m := Message(User, "Hello");
    assert Run("", [turn]).requests == [] + [[] + [m]];
    assert [] + [m] == [m];
  }
}

=== FILE: text.dfy ===
/**
 The two Python string operations the command-line front end relies on:
 `str.strip()` with no argument (used to recognise commands and blank
 submissions) and `sep.join(parts)` (used to assemble a multi-line
 submission), together with the split that undoes the join.
 */
module Text {

  /** The ASCII characters `str.strip()` removes: tab, line feed, vertical
      tab, form feed, carriage return, the four separators U+001C to U+001F
      and space. */
  predicate IsSpace(c: char) {
    ('\t' <= c <= '\r') || ('\U{001C}' <= c <= '\U{001F}') || c == ' '
  }

  /** Every character of `s` is whitespace (this includes the empty string). */
  predicate Blank(s: string) {
    forall i | 0 <= i < |s| :: IsSpace(s[i])
  }

  /** A string that `strip()` leaves alone: empty, or neither end is whitespace. */
  predicate Trimmed(s: string) {
    s == [] || (!IsSpace(s[0]) && !IsSpace(s[|s| - 1]))
  }

  /** The index of the first non-whitespace character of `s` at or after
      `i`, or `|s|` when there is none. */
  function SkipSpaces(s: string, i: nat): (r: nat)
    requires i <= |s|
    ensures i <= r <= |s|
    decreases |s| - i
  {
    if i < |s| && IsSpace(s[i]) then SkipSpaces(s, i + 1) else i
  }

  /** The index just past the last non-whitespace character of `s` in
      `[lo, j)`, or `lo` when there is none. */
  function SkipSpacesBack(s: string, lo: nat, j: nat): (r: nat)
    requires lo <= j <= |s|
    ensures lo <= r <= j
    decreases j
  {
    if lo < j && IsSpace(s[j - 1]) then SkipSpacesBack(s, lo, j - 1) else j
  }

  /** `s.strip()`: `s` with whitespace removed from both ends. */
  function Strip(s: string): string {
    var a := SkipSpaces(s, 0);
    s[a..SkipSpacesBack(s, a, |s|)]
  }

  /** Skipping forward passes only whitespace and stops at a non-whitespace
      character or the end. */
  lemma {:induction false} SkipSpacesShape(s: string, i: nat)
    requires i <= |s|
    ensures forall j | i <= j < SkipSpaces(s, i) :: IsSpace(s[j])
    ensures SkipSpaces(s, i) < |s| ==> !IsSpace(s[SkipSpaces(s, i)])
    decreases |s| - i
  {
    if i < |s| && IsSpace(s[i]) {
      SkipSpacesShape(s, i + 1);
    }
  }

  /** Skipping forward stops at the only position its characterisation allows. */
  lemma {:induction false} SkipSpacesIs(s: string, i: nat, a: nat)
    requires i <= a <= |s|
    requires forall j | i <= j < a :: IsSpace(s[j])
    requires a < |s| ==> !IsSpace(s[a])
    ensures SkipSpaces(s, i) == a
    decreases |s| - i
  {
    if i < a {
      SkipSpacesIs(s, i + 1, a);
    }
  }

  /** Skipping backward passes only whitespace and stops after a
      non-whitespace character or at the lower bound. */
  lemma {:induction false} SkipSpacesBackShape(s: string, lo: nat, j: nat)
    requires lo <= j <= |s|
    ensures forall k | SkipSpacesBack(s, lo, j) <= k < j :: IsSpace(s[k])
    ensures SkipSpacesBack(s, lo, j) > lo ==> !IsSpace(s[SkipSpacesBack(s, lo, j) - 1])
    decreases j
  {
    if lo < j && IsSpace(s[j - 1]) {
      SkipSpacesBackShape(s, lo, j - 1);
    }
  }

  /** Skipping backward stops at the only position its characterisation allows. */
  lemma {:induction false} SkipSpacesBackIs(s: string, lo: nat, j: nat, b: nat)
    requires lo <= b <= j <= |s|
    requires forall k | b <= k < j :: IsSpace(s[k])
    requires b > lo ==> !IsSpace(s[b - 1])
    ensures SkipSpacesBack(s, lo, j) == b
    decreases j
  {
    if b < j {
      SkipSpacesBackIs(s, lo, j - 1, b);
    }
  }

  /** What `strip()` promises: the result is the slice of `s` left once the
      whitespace on either side is removed, it has no whitespace at either end,
      and it is empty exactly when `s` is all whitespace. */
  lemma StripIsTrimmedSlice(s: string)
    ensures Trimmed(Strip(s))
    ensures exists i :: 0 <= i <= |s| - |Strip(s)| && Strip(s) == s[i..i + |Strip(s)|]
                        && Blank(s[..i]) && Blank(s[i + |Strip(s)|..])
    ensures Strip(s) == [] <==> Blank(s)
  {
    var a := SkipSpaces(s, 0);
    SkipSpacesShape(s, 0);
    var b := SkipSpacesBack(s, a, |s|);
    SkipSpacesBackShape(s, a, |s|);
    var r := s[a..b];
    assert Strip(s) == r;
    assert Blank(s[..a]) by {
      forall j | 0 <= j < a ensures IsSpace(s[..a][j]) {
        assert s[..a][j] == s[j];
      }
    }
    assert Blank(s[b..]) by {
      forall k | 0 <= k < |s| - b ensures IsSpace(s[b..][k]) {
        assert s[b..][k] == s[b + k];
      }
    }
    assert r != [] ==> r[0] == s[a] && r[|r| - 1] == s[b - 1];
    assert a == b ==> Blank(s) by {
      if a == b {
        assert a == |s|;
      }
    }
    assert a < b ==> !Blank(s) by {
      if a < b {
        assert !IsSpace(s[a]);
      }
    }
  }

  /** Padding a trimmed string with whitespace on both sides and stripping
      gives the string back: `strip()` is determined by its characterisation. */
  lemma StripPadded(p: string, t: string, q: string)
    requires Blank(p) && Blank(q) && Trimmed(t)
    ensures Strip(p + t + q) == t
  {
    var s := p + t + q;
    if t == [] {
      forall j | 0 <= j < |s| ensures IsSpace(s[j]) {
        if j < |p| {
          assert s[j] == p[j];
        } else {
          assert s[j] == q[j - |p|];
        }
      }
      SkipSpacesIs(s, 0, |s|);
      SkipSpacesBackIs(s, |s|, |s|, |s|);
    } else {
      var a := |p|;
      var b := |p| + |t|;
      forall j | 0 <= j < a ensures IsSpace(s[j]) {
        assert s[j] == p[j];
      }
      assert s[a] == t[0];
      SkipSpacesIs(s, 0, a);
      forall k | b <= k < |s| ensures IsSpace(s[k]) {
        assert s[k] == q[k - b];
      }
      assert s[b - 1] == t[|t| - 1];
      SkipSpacesBackIs(s, a, |s|, b);
      assert s[a..b] == t;
    }
  }

  /** A string with no whitespace at either end is left alone by `strip()`. */
  lemma StripTrimmed(t: string)
    requires Trimmed(t)
    ensures Strip(t) == t
  {
    assert [] + t + [] == t;
    StripPadded([], t, []);
  }

  /** Stripping twice is the same as stripping once. */
  lemma StripIdempotent(s: string)
    ensures Strip(Strip(s)) == Strip(s)
  {
    StripIsTrimmedSlice(s);
    StripTrimmed(Strip(s));
  }

  /** `sep.join(parts)`: the parts in order with one `sep` between neighbours. */
  function Join(sep: string, parts: seq<string>): string
    decreases |parts|
  {
    if |parts| == 0 then ""
    else if |parts| == 1 then parts[0]
    else parts[0] + sep + Join(sep, parts[1..])
  }

  /** Total number of characters in `parts`. */
  function TotalLength(parts: seq<string>): nat
    decreases |parts|
  {
    if |parts| == 0 then 0 else |parts[0]| + TotalLength(parts[1..])
  }

  /** A join holds every part and exactly one separator per gap. */
  lemma {:induction false} JoinLength(sep: string, parts: seq<string>)
    requires |parts| > 0
    ensures |Join(sep, parts)| == TotalLength(parts) + |sep| * (|parts| - 1)
    decreases |parts|
  {
    if |parts| > 1 {
      JoinLength(sep, parts[1..]);
    }
  }

  /** Joining one more part appends one separator and that part. */
  lemma {:induction false} JoinSnoc(sep: string, parts: seq<string>, last: string)
    requires |parts| > 0
    ensures Join(sep, parts + [last]) == Join(sep, parts) + sep + last
    decreases |parts|
  {
    if |parts| == 1 {
      assert parts + [last] == [parts[0], last];
    } else {
      assert (parts + [last])[1..] == parts[1..] + [last];
      JoinSnoc(sep, parts[1..], last);
    }
  }

  /** The index of the first blank-line separator "\n\n" in `s`, or `|s|` if none. */
  function ParagraphBreak(s: string): (k: nat)
    ensures k <= |s|
    ensures k < |s| ==> k + 1 < |s| && s[k] == '\n' && s[k + 1] == '\n'
    ensures forall i | 0 <= i < k && i + 1 < |s| :: !(s[i] == '\n' && s[i + 1] == '\n')
    decreases |s|
  {
    if |s| < 2 then |s|
    else if s[0] == '\n' && s[1] == '\n' then 0
    else 1 + ParagraphBreak(s[1..])
  }

  /** `s.split("\n\n")`: the pieces between successive separators, left to right. */
  function SplitParagraphs(s: string): (r: seq<string>)
    ensures |r| > 0
    decreases |s|
  {
    var k := ParagraphBreak(s);
    if k == |s| then [s] else [s[..k]] + SplitParagraphs(s[k + 2..])
  }

  /** `s` contains no line feed, as holds of every line `input()` returns. */
  predicate SingleLine(s: string) {
    forall i | 0 <= i < |s| :: s[i] != '\n'
  }

  /** A blank-line separator right after a single line is the first one. */
  lemma ParagraphBreakAfterLine(a: string, rest: string)
    requires SingleLine(a)
    ensures ParagraphBreak(a + "\n\n" + rest) == |a|
  {
    var s := a + "\n\n" + rest;
    assert forall i | 0 <= i < |a| :: s[i] == a[i];
    assert s[|a|] == '\n' && s[|a| + 1] == '\n';
  }

  /** A single line holds no blank-line separator. */
  lemma ParagraphBreakOfLine(a: string)
    requires SingleLine(a)
    ensures ParagraphBreak(a) == |a|
  {
  }

  /** Joining single-line parts with a blank line is undone by splitting on
      blank lines: the joined text determines the parts, empty ones included.
      No parts join to the empty text, which splits to one empty part. */
  lemma {:induction false} SplitJoinParagraphs(parts: seq<string>)
    requires forall i | 0 <= i < |parts| :: SingleLine(parts[i])
    ensures |parts| > 0 ==> SplitParagraphs(Join("\n\n", parts)) == parts
    ensures |parts| == 0 ==> SplitParagraphs(Join("\n\n", parts)) == [""]
    decreases |parts|
  {
    if |parts| == 0 {
      assert Join("\n\n", parts) == "";
    } else if |parts| == 1 {
      ParagraphBreakOfLine(parts[0]);
      assert Join("\n\n", parts) == parts[0];
    } else {
      var a := parts[0];
      var rest := Join("\n\n", parts[1..]);
      var s := a + "\n\n" + rest;
      assert Join("\n\n", parts) == s;
      ParagraphBreakAfterLine(a, rest);
      assert s[..|a|] == a;
      assert s[|a| + 2..] == rest;
      assert SplitParagraphs(s) == [a] + SplitParagraphs(rest);
      SplitJoinParagraphs(parts[1..]);
      assert parts == [a] + parts[1..];
    }
  }
}
